=== FILE: README.md ===
# WebView file-chooser bridge, in Dafny

This project models the file-chooser logic of the minimal Android WebView
example: how `MainActivity` answers a web page's file-input request.
The activity keeps two slots, the page's pending `fileChooserCallback` and a
pre-allocated `cameraImageUri`. `onShowFileChooser` arms both and launches a
combined camera/gallery chooser. The activity-result callback turns the
operating system's answer into exactly one value for the page: `null`, an
empty array, the clip items, the single data URI or the camera URI. It then
clears both slots. Two string rules of the blob-download path are modelled
beside it: the `blob:` filter on download URLs and the `substringAfter("base64,")`
payload extraction in `saveImage`.

Modules:

- `Wrappers` (`wrappers.dfy`): `Option`, standing for Kotlin's nullable types.
- `FileChooser` (`file_chooser.dfy`): the result intent (`ActivityResult`,
  `Intent`, `ClipData`), the two slots (`ChooserState`), the precedence rule
  `Reconcile`, and the arm (`ShowChooser`) and resolve (`OnResult`, `Resolve`)
  transitions.
- `ChooserTrace` (`chooser_trace.dfy`): runs over a sequence of UI-thread
  events, with a delivery log of every `onReceiveValue` call. The log states
  at-most-once and exactly-once delivery, and what happens when a second
  chooser arrives before the first is resolved.
- `BlobBridge` (`blob_bridge.dfy`): `startsWith("blob:")`, the first-match
  search behind Kotlin's `indexOf` (index counted in characters, for start
  indices within the text), `substringAfter`, and the data-URL round trip of
  payload extraction.

A `Uri` is a datatype holding its text; only its identity matters. A page
callback is identified by a natural number (`CallbackId`). `null` is `None`.
`RESULT_OK` is the Android constant -1.

Behaviour of the code worth knowing:

- A cancelled chooser delivers a `null` array, not an empty one. An empty
  array is delivered only for an OK result without payload and camera URI, or
  for clip data with zero items.
- A second chooser is neither rejected nor queued. It overwrites the pending
  callback, which is then never called (`SecondShowOrphansFirst`). This
  happens even when allocating the camera file then throws, because the
  callback is replaced first. When no capture activity resolves the second
  time, the camera slot keeps the first chooser's URI, and that URI can be
  delivered to the second callback (`StaleCameraUriDelivered`).
- The camera URI is not claimed unique across choosers. The outcome of the
  capture setup is a parameter (`CaptureSetup`: no capture activity, an
  allocated URI, or a failed allocation), because timestamps and the file
  system are outside the model.

## Model

| member | source | states |
|---|---|---|
| FileChooser.Reconcile | app/src/main/java/com/example/webviewminimalexample/MainActivity.kt:36-61 | A null array exactly when the result code is not RESULT_OK. With clip data: one URI per item in index order, including zero items. Otherwise the single data URI. Otherwise the camera URI if allocated, else an empty, non-null array. Every delivered URI comes from the clip, the data URI or the camera slot. |
| FileChooser.Resolve | app/src/main/java/com/example/webviewminimalexample/MainActivity.kt:34-64 | The callback as written (mutable list, index loop over `getItemAt`, delivery, reset) produces the same slots and delivery as `OnResult` on every input. |
| FileChooser.OnResult | app/src/main/java/com/example/webviewminimalexample/MainActivity.kt:58-63 | Both slots end empty whichever branch ran. A delivery happens iff a callback is pending, goes to that callback, and carries the reconciled value. |
| FileChooser.ShowChooser | app/src/main/java/com/example/webviewminimalexample/MainActivity.kt:91-122 | The new callback (even null) replaces the pending one in every case. An allocated camera URI is stored; otherwise the slot is unchanged. If the allocation throws, nothing is launched and the call does not return. Otherwise it launches a multi-select chooser, whose capture target is the stored URI exactly when one was allocated, and returns true. |
| FileChooser.CancelIgnoresPayload | app/src/main/java/com/example/webviewminimalexample/MainActivity.kt:59-60 | A non-OK result delivers null whatever the intent and camera slot hold. |
| FileChooser.GalleryIgnoresCamera | app/src/main/java/com/example/webviewminimalexample/MainActivity.kt:43-52 | With a gallery payload, the camera URI does not influence the delivered value. |
| FileChooser.ClipIgnoresData | app/src/main/java/com/example/webviewminimalexample/MainActivity.kt:46-51 | With clip data, the single data URI does not influence the delivered value. |
| FileChooser.EmptyArrayExactly | app/src/main/java/com/example/webviewminimalexample/MainActivity.kt:37-58 | An empty array is delivered iff the result is OK and either the clip has zero items, or there is no payload and no camera URI. |
| ChooserTrace.Step | app/src/main/java/com/example/webviewminimalexample/MainActivity.kt:58-63 | A result event delivers exactly when a callback is pending, to that callback, with the reconciled value, and leaves both slots empty. A show event delivers nothing, installs its callback, and changes the camera slot only to a successfully allocated URI. |
| ChooserTrace.Run | app/src/main/java/com/example/webviewminimalexample/MainActivity.kt:58-63 | A run delivers at most once per result event. A run that ends in a result leaves both slots empty. |
| ChooserTrace.DeliversAtMostOnce | app/src/main/java/com/example/webviewminimalexample/MainActivity.kt:58-62 | If every activation brings a new callback, no callback is called twice. Every callback called was pending at the start or armed during the run. |
| ChooserTrace.ResolvedExactlyOnce | app/src/main/java/com/example/webviewminimalexample/MainActivity.kt:58-63 | A callback pending when a result arrives is called first, with that result's reconciled value, and exactly once over the whole run. |
| ChooserTrace.ArmThenResolve | app/src/main/java/com/example/webviewminimalexample/MainActivity.kt:96-108 | Arming then resolving delivers to the new callback, using the camera URI allocated by the arming if there is one, else the previous slot. Both slots end empty. |
| ChooserTrace.NullCallbackDeliversNothing | app/src/main/java/com/example/webviewminimalexample/MainActivity.kt:58-62 | With a null callback armed, a result delivers nothing but still resets both slots. |
| ChooserTrace.SecondShowOrphansFirst | app/src/main/java/com/example/webviewminimalexample/MainActivity.kt:96 | A second activation replaces the first callback. The next result goes to the second callback only, and the first is never called. |
| ChooserTrace.StaleCameraUriDelivered | app/src/main/java/com/example/webviewminimalexample/MainActivity.kt:100-108 | If the second activation finds no capture activity, the first activation's camera URI stays in the slot. An OK result with no intent delivers it to the second callback. |
| BlobBridge.StartsWith | app/src/main/java/com/example/webviewminimalexample/MainActivity.kt:85 | Holds iff the prefix matches at index 0. When it holds, the text is the prefix followed by the rest. |
| BlobBridge.ShouldFetchBlob | app/src/main/java/com/example/webviewminimalexample/MainActivity.kt:83-87 | A download URL is fetched through the page script iff it is `blob:` followed by anything. |
| BlobBridge.IndexOf | app/src/main/java/com/example/webviewminimalexample/MainActivity.kt:176 | For a start index within the text, returns the first index at or after it where the delimiter occurs, counted in characters, or none if there is no such index. |
| BlobBridge.SubstringAfter | app/src/main/java/com/example/webviewminimalexample/MainActivity.kt:176 | The result is a suffix of the input. Without the delimiter it is the whole input. Otherwise it starts right after the first occurrence of the delimiter. |
| BlobBridge.Base64Payload | app/src/main/java/com/example/webviewminimalexample/MainActivity.kt:176 | Without `base64,` the payload is the whole argument. Otherwise it is the suffix that starts right after the first occurrence of `base64,`. |
| BlobBridge.PayloadOfDataUrl | app/src/main/java/com/example/webviewminimalexample/MainActivity.kt:176 | For a comma-free media type, extracting the payload from `data:<mime>;base64,<body>` returns exactly `body`, whatever the body holds. |
| BlobBridge.BareBase64Unchanged | app/src/main/java/com/example/webviewminimalexample/MainActivity.kt:176 | A comma-free argument, such as the bare base64 text the page script sends, is passed on whole. |

## Left out

- WebView settings, `loadUrl` and the JavaScript interface registration (MainActivity.kt:74-82, 88, 125). They are framework plumbing with no logic. The download listener's `blob:` test at lines 83-87 is modelled, by `ShouldFetchBlob`.
- The injected fetch/FileReader script (MainActivity.kt:137-169). It is foreign, asynchronous, network-bound code. Its comma split only matters as the comma-free input of `BareBase64Unchanged`.
- Intent construction, `resolveActivity`, `FileProvider.getUriForFile` and `createImageFile` (MainActivity.kt:99-120, 128-134). These are operating-system and file-system calls. They appear only as the `CaptureSetup` parameter of `ShowChooser`. Timestamp uniqueness of file names is not claimed.
- `Base64.decode`, the file writes, MediaStore insertion and the Toasts in `saveImage` (MainActivity.kt:178-214). These are library I/O with swallowed exceptions. Only the payload extraction at line 176 is modelled.
- `println` calls. They are logging only.
- `FileChooser.Reconcile`: clip items are modelled as non-null URIs; a null item URI is not modelled. `ClipData.Item.getUri()` may return null on Android. In the source that null would meet the non-null list `uris` at MainActivity.kt:48, most likely with a null-check failure that ends the callback before the delivery at line 58 and the reset at lines 62-63.
- BlobBridge.IndexOf: indices count characters (Unicode scalar values), not the UTF-16 code units Kotlin counts on the JVM, so index values differ on text with characters outside the Basic Multilingual Plane; the substring `SubstringAfter` and `Base64Payload` extract is the same. Unpaired surrogates, which a Kotlin string may hold, cannot be represented.
- What the framework does with the exception that escapes `onShowFileChooser` when the camera file cannot be allocated. The model records only the state left behind: the new callback armed, the camera slot unchanged, and no chooser launched.
- Launching the chooser (`filePickerLauncher.launch`) and the wait for the user are not modelled as effects. A run is an interleaving of show and result events chosen by the caller.

=== FILE: blob_bridge.dfy ===
/**
 * The two string rules of the blob-download path: which download URLs are
 * fetched through the page's script, and how the bridge's `saveImage` call
 * cuts the base64 payload out of the string the page hands it.
 */
module BlobBridge {
  import opened Wrappers

  const BlobScheme: string := "blob:"
  const Base64Marker: string := "base64,"

  /** `d` occurs in `s` starting at index `j`. */
  predicate MatchAt(s: string, d: string, j: nat) {
    j + |d| <= |s| && s[j..j + |d|] == d
  }

  /** `d` occurs somewhere in `s`. */
  predicate Occurs(s: string, d: string) {
    exists j: nat | j <= |s| :: MatchAt(s, d, j)
  }

  /** Kotlin's `startsWith(prefix)`: case-sensitive prefix test. */
  function StartsWith(s: string, prefix: string): (r: bool)
    ensures r <==> MatchAt(s, prefix, 0)
    ensures r ==> s == prefix + s[|prefix|..]
  {
    |prefix| <= |s| && s[..|prefix|] == prefix
  }

  /** The download listener hands a URL to the script fetch exactly when it is a `blob:` URL. */
  function ShouldFetchBlob(url: string): (r: bool)
    ensures r ==> |BlobScheme| <= |url| && url == BlobScheme + url[|BlobScheme|..]
    ensures forall rest :: r <== url == BlobScheme + rest
  {
    StartsWith(url, BlobScheme)
  }

  /**
   * The first index at or after `from` where `d` occurs in `s`, counted in
   * characters, or `None` for `-1`. Kotlin's `indexOf(d, from)` gives the same
   * match for `from <= |s|`, but counts UTF-16 code units, so its index values
   * differ on text with characters outside the Basic Multilingual Plane.
   */
  function IndexOf(s: string, d: string, from: nat): (r: Option<nat>)
    requires from <= |s|
    ensures r.Some? ==> from <= r.value && MatchAt(s, d, r.value)
    ensures r.Some? ==> forall j: nat :: from <= j < r.value ==> !MatchAt(s, d, j)
    ensures r.None? ==> forall j: nat :: from <= j ==> !MatchAt(s, d, j)
    decreases |s| + 1 - from
  {
    if from + |d| > |s| then None
    else if s[from..from + |d|] == d then Some(from)
    else IndexOf(s, d, from + 1)
  }

  /**
   * Kotlin's `substringAfter(d)`: the text after the first occurrence of `d`,
   * or the whole of `s` when `d` does not occur.
   */
  function SubstringAfter(s: string, d: string): (r: string)
    // The result is a suffix of the input.
    ensures |r| <= |s| && r == s[|s| - |r|..]
    ensures !Occurs(s, d) ==> r == s
    // Otherwise the input is cut just after the first occurrence of d.
    ensures Occurs(s, d) ==>
              && |r| + |d| <= |s|
              && MatchAt(s, d, |s| - |r| - |d|)
              && forall j: nat :: j < |s| - |r| - |d| ==> !MatchAt(s, d, j)
  {
    match IndexOf(s, d, 0)
    case Some(k) => s[k + |d|..]
    case None => s
  }

  /** `saveImage`'s payload: what follows the first `base64,`, or the whole argument. */
  function Base64Payload(base64Data: string): (r: string)
    ensures |r| <= |base64Data|
    ensures !Occurs(base64Data, Base64Marker) ==> r == base64Data
    // Otherwise the text after the first occurrence of the marker.
    ensures Occurs(base64Data, Base64Marker) ==>
              && |r| + |Base64Marker| <= |base64Data|
              && r == base64Data[|base64Data| - |r|..]
              && MatchAt(base64Data, Base64Marker, |base64Data| - |r| - |Base64Marker|)
              && forall j: nat :: j < |base64Data| - |r| - |Base64Marker| ==> !MatchAt(base64Data, Base64Marker, j)
  {
    SubstringAfter(base64Data, Base64Marker)
  }

  /** A data URL as a `FileReader` produces it: `data:<mime>;base64,<body>`. */
  function DataUrl(mime: string, body: string): string {
    "data:" + mime + ";" + Base64Marker + body
  }

  /**
   * Payload extraction inverts data-URL formation whenever the media type has
   * no comma: the first `base64,` is the one that ends the header, whatever
   * the body holds.
   */
  lemma PayloadOfDataUrl(mime: string, body: string)
    requires ',' !in mime
    ensures Base64Payload(DataUrl(mime, body)) == body
  {
    var header := "data:" + mime + ";";
    var s := DataUrl(mime, body);
    assert s == header + Base64Marker + body;
    var k := |header|;
    assert MatchAt(s, Base64Marker, k) by {
      assert s[k..k + |Base64Marker|] == Base64Marker;
    }
    forall j: nat | j < k ensures !MatchAt(s, Base64Marker, j) {
      NoEarlierMarker(header, body, j);
    }
    var r := SubstringAfter(s, Base64Marker);
    assert |s| - |r| - |Base64Marker| == k;
    assert r == s[k + |Base64Marker|..];
    assert s[k + |Base64Marker|..] == body;
  }

  /** In `header + "base64," + body` with a comma-free header, no match starts inside the header. */
  lemma NoEarlierMarker(header: string, body: string, j: nat)
    requires ',' !in header
    requires j < |header|
    ensures !MatchAt(header + Base64Marker + body, Base64Marker, j)
  {
    var s := header + Base64Marker + body;
    if j + |Base64Marker| <= |s| {
      // The marker's comma would sit at j + 6: inside the header, or inside "base64" itself.
      if j + 6 < |header| {
        assert s[j + 6] == header[j + 6];
        assert header[j + 6] in header;
      } else {
        assert s[j + 6] == Base64Marker[j + 6 - |header|];
      }
      assert s[j..j + |Base64Marker|][6] == s[j + 6] != ',';
    }
  }

  /** Without the marker (the page's script already split at the comma), the argument is passed on whole. */
  lemma BareBase64Unchanged(base64Data: string)
    requires forall k :: 0 <= k < |base64Data| ==> base64Data[k] != ','
    ensures Base64Payload(base64Data) == base64Data
  {
    forall j: nat | j <= |base64Data| ensures !MatchAt(base64Data, Base64Marker, j) {
      if j + |Base64Marker| <= |base64Data| {
        assert base64Data[j..j + |Base64Marker|][6] == base64Data[j + 6] != ',';
      }
    }
  }
}

=== FILE: chooser_trace.dfy ===
/**
 * Runs of the chooser bridge over a sequence of UI-thread events, and the
 * delivery log they produce. Each event is either a page's file-input
 * activation or the picker's result; the log records every `onReceiveValue`
 * call in order, so that at-most-once delivery can be stated about it.
 */
module ChooserTrace {
  import opened Wrappers
  import opened FileChooser

  /** One UI-thread event reaching the activity. */
  datatype Event =
    | Show(filePathCallback: Option<CallbackId>, setup: CaptureSetup)
    | Result(result: ActivityResult)

  /** One event: the new slots and the delivery it makes, if any. */
  function Step(s: ChooserState, e: Event): (r: (ChooserState, Option<Delivery>))
    // Only a result delivers, and only to the callback pending when it arrives.
    ensures r.1.Some? ==> e.Result? && s.fileChooserCallback == Some(r.1.value.callback)
    // A result delivers exactly when a callback is pending, with the reconciled value, and resets.
    ensures e.Result? ==> r.0 == Idle
    ensures e.Result? ==> (r.1.Some? <==> s.fileChooserCallback.Some?)
    ensures e.Result? && r.1.Some? ==> r.1.value.value == Reconcile(e.result, s.cameraImageUri)
    // A show installs its callback and fills the camera slot only on a successful allocation.
    ensures e.Show? ==> r.1.None? && r.0.fileChooserCallback == e.filePathCallback
    ensures e.Show? ==> r.0.cameraImageUri == (if e.setup.Allocated? then Some(e.setup.uri) else s.cameraImageUri)
  {
    match e
    case Show(cb, setup) => (ShowChooser(s, cb, setup).state, None)
    case Result(result) => OnResult(s, result)
  }

  /** Number of result events in `evs`. */
  function ResultCount(evs: seq<Event>): nat {
    if |evs| == 0 then 0
    else (if evs[0].Result? then 1 else 0) + ResultCount(evs[1..])
  }

  /** The final slots and the delivery log of running `evs` from `s`. */
  function Run(s: ChooserState, evs: seq<Event>): (r: (ChooserState, seq<Delivery>))
    // At most one delivery per result event.
    ensures |r.1| <= ResultCount(evs)
    // A run ending in a result leaves both slots empty.
    ensures |evs| > 0 && evs[|evs| - 1].Result? ==> r.0 == Idle
    decreases |evs|
  {
    if |evs| == 0 then (s, [])
    else
      var (s1, d) := Step(s, evs[0]);
      var (s2, ds) := Run(s1, evs[1..]);
      (s2, d.ToSeq() + ds)
  }

  /** The non-null callbacks armed by the show events of `evs`, in order. */
  function ArmedIds(evs: seq<Event>): seq<CallbackId> {
    if |evs| == 0 then []
    else
      (if evs[0].Show? then evs[0].filePathCallback.ToSeq() else []) + ArmedIds(evs[1..])
  }

  predicate DistinctIds(ids: seq<CallbackId>) {
    forall i, j :: 0 <= i < j < |ids| ==> ids[i] != ids[j]
  }

  /** No callback appears twice in the delivery log. */
  predicate AtMostOnce(ds: seq<Delivery>) {
    forall i, j :: 0 <= i < j < |ds| ==> ds[i].callback != ds[j].callback
  }

  /**
   * When every activation hands over a new callback (distinct identities, none
   * of them the one already pending), no callback is ever called twice, and
   * every callback called was pending at the start or armed by the run.
   */
  lemma {:induction false} DeliversAtMostOnce(s: ChooserState, evs: seq<Event>)
    requires DistinctIds(ArmedIds(evs))
    requires s.fileChooserCallback.Some? ==> s.fileChooserCallback.value !in ArmedIds(evs)
    ensures AtMostOnce(Run(s, evs).1)
    ensures forall d :: d in Run(s, evs).1 ==>
              d.callback in ArmedIds(evs) || s.fileChooserCallback == Some(d.callback)
    decreases |evs|
  {
    if |evs| > 0 {
      var e, rest := evs[0], evs[1..];
      var (s1, d) := Step(s, e);
      var ds := Run(s1, rest).1;
      var head := if e.Show? then e.filePathCallback.ToSeq() else [];
      assert ArmedIds(evs) == head + ArmedIds(rest);
      assert DistinctIds(ArmedIds(rest)) by {
        forall i, j | 0 <= i < j < |ArmedIds(rest)|
          ensures ArmedIds(rest)[i] != ArmedIds(rest)[j]
        {
          assert ArmedIds(rest)[i] == ArmedIds(evs)[|head| + i];
          assert ArmedIds(rest)[j] == ArmedIds(evs)[|head| + j];
        }
      }
      if s1.fileChooserCallback.Some? {
        var cb := s1.fileChooserCallback.value;
        // The pending callback is either the one just armed or the one pending before.
        if e.Show? {
          assert head == [cb] && ArmedIds(evs)[0] == cb;
          forall k | 0 <= k < |ArmedIds(rest)| ensures ArmedIds(rest)[k] != cb {
            assert ArmedIds(rest)[k] == ArmedIds(evs)[1 + k];
          }
        }
      }
      DeliversAtMostOnce(s1, rest);
      assert Run(s, evs).1 == d.ToSeq() + ds;
      if d.Some? {
        var cb := d.value.callback;
        assert s.fileChooserCallback == Some(cb);
        assert forall x :: x in ds ==> x.callback != cb;
        forall i, j | 0 <= i < j < |d.ToSeq() + ds|
          ensures (d.ToSeq() + ds)[i].callback != (d.ToSeq() + ds)[j].callback
        {
          if i > 0 {
            assert (d.ToSeq() + ds)[i] == ds[i - 1];
          }
          assert (d.ToSeq() + ds)[j] == ds[j - 1];
        }
      }
    }
  }

  /** Number of deliveries to `cb` in `ds`. */
  function DeliveriesTo(ds: seq<Delivery>, cb: CallbackId): nat {
    if |ds| == 0 then 0
    else (if ds[0].callback == cb then 1 else 0) + DeliveriesTo(ds[1..], cb)
  }

  lemma {:induction false} AtMostOnceCount(ds: seq<Delivery>, cb: CallbackId)
    requires AtMostOnce(ds)
    ensures DeliveriesTo(ds, cb) <= 1
    ensures DeliveriesTo(ds, cb) == 1 <==> exists d :: d in ds && d.callback == cb
    decreases |ds|
  {
    if |ds| > 0 {
      AtMostOnceCount(ds[1..], cb);
      if ds[0].callback == cb {
        assert forall d :: d in ds[1..] ==> d.callback != cb by {
          forall k | 0 <= k < |ds[1..]| ensures ds[1..][k].callback != cb {
            assert ds[1..][k] == ds[k + 1];
          }
        }
      }
      assert forall d :: d in ds <==> d == ds[0] || d in ds[1..];
    }
  }

  /**
   * A callback pending when a result arrives is called exactly once over the
   * whole run, with the reconciled value of that result, provided later
   * activations hand over new callbacks.
   */
  lemma ResolvedExactlyOnce(s: ChooserState, evs: seq<Event>)
    requires s.fileChooserCallback.Some?
    requires |evs| > 0 && evs[0].Result?
    requires DistinctIds(ArmedIds(evs))
    requires s.fileChooserCallback.value !in ArmedIds(evs)
    ensures |Run(s, evs).1| > 0
    ensures Run(s, evs).1[0]
         == Delivery(s.fileChooserCallback.value, Reconcile(evs[0].result, s.cameraImageUri))
    ensures DeliveriesTo(Run(s, evs).1, s.fileChooserCallback.value) == 1
  {
    var ds := Run(s, evs).1;
    DeliversAtMostOnce(s, evs);
    AtMostOnceCount(ds, s.fileChooserCallback.value);
    assert ds[0] in ds;
  }

  /** A one-event run is that event's step. */
  lemma RunSingle(s: ChooserState, e: Event)
    ensures Run(s, [e]) == (Step(s, e).0, Step(s, e).1.ToSeq())
  {
    assert [e][1..] == [];
    assert Step(s, e).1.ToSeq() + [] == Step(s, e).1.ToSeq();
  }

  /** Arm then resolve: the new callback receives the reconciled value, and both slots end empty. */
  lemma ArmThenResolve(s: ChooserState, cb: CallbackId, setup: CaptureSetup, result: ActivityResult)
    ensures Run(s, [Show(Some(cb), setup), Result(result)])
         == (Idle, [Delivery(cb, Reconcile(result, if setup.Allocated? then Some(setup.uri) else s.cameraImageUri))])
  {
    var evs := [Show(Some(cb), setup), Result(result)];
    var s1 := Step(s, evs[0]).0;
    assert evs[1..] == [Result(result)];
    RunSingle(s1, Result(result));
    assert [] + Run(s1, evs[1..]).1 == Run(s1, evs[1..]).1;
  }

  /** A result with no callback pending (a null one was armed) delivers nothing but still resets. */
  lemma NullCallbackDeliversNothing(s: ChooserState, setup: CaptureSetup, result: ActivityResult)
    ensures Run(s, [Show(None, setup), Result(result)]) == (Idle, [])
  {
  }

  /**
   * A second activation before the first is resolved replaces the first
   * callback: only the second one is ever called.
   */
  lemma SecondShowOrphansFirst(s: ChooserState, cb1: CallbackId, cb2: CallbackId,
                               c1: CaptureSetup, c2: CaptureSetup, result: ActivityResult)
    requires cb1 != cb2
    ensures var ds := Run(s, [Show(Some(cb1), c1), Show(Some(cb2), c2), Result(result)]).1;
            var camera := if c2.Allocated? then Some(c2.uri) else if c1.Allocated? then Some(c1.uri) else s.cameraImageUri;
            ds == [Delivery(cb2, Reconcile(result, camera))]
            && DeliveriesTo(ds, cb1) == 0
  {
    var evs := [Show(Some(cb1), c1), Show(Some(cb2), c2), Result(result)];
    var s1 := Step(s, evs[0]).0;
    var s2 := Step(s1, evs[1]).0;
    assert evs[1..] == [Show(Some(cb2), c2), Result(result)];
    assert evs[1..][1..] == [Result(result)] && evs[1..][1..][1..] == [];
    var ds := [Delivery(cb2, Reconcile(result, s2.cameraImageUri))];
    RunSingle(s2, Result(result));
    assert DeliveriesTo(ds, cb1) == 0 by {
      assert ds[1..] == [];
    }
  }

  /**
   * When the second activation finds no capture activity, the camera slot still
   * holds the first activation's URI, and an OK result with no gallery payload
   * hands that earlier URI to the second callback.
   */
  lemma StaleCameraUriDelivered(cb1: CallbackId, cb2: CallbackId, u1: Uri)
    ensures Run(Idle, [Show(Some(cb1), Allocated(u1)), Show(Some(cb2), NoCaptureActivity),
                       Result(ActivityResult(RESULT_OK, None))]).1
         == [Delivery(cb2, Some([u1]))]
  {
    var result := ActivityResult(RESULT_OK, None);
    var evs := [Show(Some(cb1), Allocated(u1)), Show(Some(cb2), NoCaptureActivity), Result(result)];
    var s1 := Step(Idle, evs[0]).0;
    var s2 := Step(s1, evs[1]).0;
    assert s2.cameraImageUri == Some(u1);
    assert evs[1..] == [Show(Some(cb2), NoCaptureActivity), Result(result)];
    assert evs[1..][1..] == [Result(result)] && evs[1..][1..][1..] == [];
    assert Reconcile(result, s2.cameraImageUri) == Some([u1]);
    RunSingle(s2, Result(result));
  }
}

=== FILE: file_chooser.dfy ===
/**
 * The file-chooser bridge of the hosting activity: the two slots it keeps
 * between a page's file-input request and the picker's answer, the arm
 * transition (`onShowFileChooser`) and the resolve transition (the
 * activity-result callback), which turns the operating system's answer into
 * the one value handed to the page.
 */
module FileChooser {
  import opened Wrappers

  /** A content identifier (an Android `Uri`); only its identity matters here. */
  datatype Uri = Uri(text: string)

  /** Identity of a page's pending `ValueCallback<Array<Uri>>`. */
  type CallbackId = nat

  /** `Activity.RESULT_OK` of the Android SDK. */
  const RESULT_OK: int := -1

  /** The multi-select payload of a result intent (`ClipData`). */
  datatype ClipData = ClipData(items: seq<Uri>) {

    function ItemCount(): nat {
      |items|
    }

    function GetItemAt(i: nat): Uri
      requires i < ItemCount()
    {
      items[i]
    }
  }

  /** The result intent: its optional clip data and its optional single data URI. */
  datatype Intent = Intent(clipData: Option<ClipData>, data: Option<Uri>)

  /** What the operating system hands back: a result code and an optional intent. */
  datatype ActivityResult = ActivityResult(resultCode: int, data: Option<Intent>)

  /** `result.data?.clipData` */
  function ClipOf(result: ActivityResult): Option<ClipData> {
    match result.data
    case Some(intent) => intent.clipData
    case None => None
  }

  /** `result.data?.data` */
  function DataOf(result: ActivityResult): Option<Uri> {
    match result.data
    case Some(intent) => intent.data
    case None => None
  }

  /** True when the result carries a gallery payload (clip data or a single URI). */
  predicate HasGalleryPayload(result: ActivityResult) {
    ClipOf(result).Some? || DataOf(result).Some?
  }

  /**
   * The value the page's callback receives for `result`, given the camera URI
   * held at that moment: `None` is the `null` array of a cancelled chooser,
   * `Some(uris)` the delivered array. Gallery items take precedence over the
   * single data URI, which takes precedence over the camera URI.
   */
  function Reconcile(result: ActivityResult, camera: Option<Uri>): (r: Option<seq<Uri>>)
    // A null array exactly when the result code is not RESULT_OK.
    ensures r.None? <==> result.resultCode != RESULT_OK
    // Clip data: its items in index order, one per item, the zero-item case included.
    ensures result.resultCode == RESULT_OK && ClipOf(result).Some? ==>
              && |r.value| == ClipOf(result).value.ItemCount()
              && forall i :: 0 <= i < |r.value| ==> r.value[i] == ClipOf(result).value.GetItemAt(i)
    // A single data URI without clip data: exactly that URI.
    ensures result.resultCode == RESULT_OK && ClipOf(result).None? && DataOf(result).Some? ==>
              r == Some([DataOf(result).value])
    // No gallery payload: the camera URI if one was allocated, else an empty (not null) array.
    ensures result.resultCode == RESULT_OK && !HasGalleryPayload(result) ==>
              r == Some(camera.ToSeq())
    // Every delivered URI comes from the clip items, the data URI or the camera slot.
    ensures r.Some? ==> forall u :: u in r.value ==>
              || (ClipOf(result).Some? && u in ClipOf(result).value.items)
              || DataOf(result) == Some(u)
              || camera == Some(u)
  {
    if result.resultCode == RESULT_OK then
      var clip := ClipOf(result);
      var data := DataOf(result);
      if clip.Some? || data.Some? then
        if clip.Some? then Some(clip.value.items)
        else Some([data.value])
      else if camera.Some? then Some([camera.value])
      else Some([])
    else
      None
  }

  /** The activity's two slots: `fileChooserCallback` and `cameraImageUri`. */
  datatype ChooserState = ChooserState(fileChooserCallback: Option<CallbackId>, cameraImageUri: Option<Uri>)

  /** Both slots empty: the state at creation and after every result. */
  const Idle: ChooserState := ChooserState(None, None)

  /** One call of a page callback's `onReceiveValue`. */
  datatype Delivery = Delivery(callback: CallbackId, value: Option<seq<Uri>>)

  /** What `onShowFileChooser` launches: the multi-select gallery pick and the capture target. */
  datatype ChooserLaunch = ChooserLaunch(allowMultiple: bool, captureOutput: Option<Uri>)

  /** What the capture branch of `onShowFileChooser` runs into. */
  datatype CaptureSetup =
    | NoCaptureActivity   // no activity resolves the capture intent
    | Allocated(uri: Uri) // a fresh image file was created and its content URI obtained
    | AllocationFailed    // creating the file or obtaining its URI threw

  /**
   * The outcome of `onShowFileChooser`: the new slots, the launched chooser
   * (`None` when none was launched) and the returned flag (`None` when an
   * exception escaped the call instead).
   */
  datatype Shown = Shown(state: ChooserState, launch: Option<ChooserLaunch>, returned: Option<bool>)

  /**
   * `onShowFileChooser(filePathCallback)`: the new callback replaces any pending
   * one, even a null one, before anything else happens. When a capture activity
   * resolves and a fresh file URI is allocated, that URI goes into the camera
   * slot; otherwise the slot keeps whatever it held. If the allocation throws,
   * the exception escapes: nothing is launched and nothing is returned, but the
   * callback has already been replaced.
   */
  function ShowChooser(s: ChooserState, filePathCallback: Option<CallbackId>, setup: CaptureSetup): (r: Shown)
    ensures r.state.fileChooserCallback == filePathCallback
    ensures setup.Allocated? ==> r.state.cameraImageUri == Some(setup.uri)
    ensures !setup.Allocated? ==> r.state.cameraImageUri == s.cameraImageUri
    // The call returns, always with true, exactly when the allocation did not throw.
    ensures r.returned.Some? <==> !setup.AllocationFailed?
    ensures r.returned.Some? ==> r.returned.value
    // A chooser is launched exactly when the call returns.
    ensures r.launch.Some? <==> r.returned.Some?
    ensures r.launch.Some? ==> r.launch.value.allowMultiple
    // The capture intent writes to the URI now held in the camera slot, when it has one at all.
    ensures r.launch.Some? ==> (r.launch.value.captureOutput.Some? <==> setup.Allocated?)
    ensures r.launch.Some? && r.launch.value.captureOutput.Some? ==>
              r.launch.value.captureOutput == r.state.cameraImageUri
  {
    match setup
    case NoCaptureActivity =>
      Shown(ChooserState(filePathCallback, s.cameraImageUri), Some(ChooserLaunch(true, None)), Some(true))
    case Allocated(uri) =>
      Shown(ChooserState(filePathCallback, Some(uri)), Some(ChooserLaunch(true, Some(uri))), Some(true))
    case AllocationFailed =>
      Shown(ChooserState(filePathCallback, s.cameraImageUri), None, None)
  }

  /**
   * The activity-result callback: delivers the reconciled value to the callback
   * pending at that moment, if any, and clears both slots whichever branch was taken.
   */
  function OnResult(s: ChooserState, result: ActivityResult): (r: (ChooserState, Option<Delivery>))
    ensures r.0 == Idle
    ensures r.1.Some? <==> s.fileChooserCallback.Some?
    ensures r.1.Some? ==> r.1.value.callback == s.fileChooserCallback.value
    ensures r.1.Some? ==> r.1.value.value == Reconcile(result, s.cameraImageUri)
  {
    var value := Reconcile(result, s.cameraImageUri);
    var delivered := match s.fileChooserCallback
      case Some(cb) => Some(Delivery(cb, value))
      case None => None;
    (Idle, delivered)
  }

  /**
   * The result callback as written: a mutable list filled by an index loop over
   * the clip items, then the delivery and the reset of both slots. It agrees
   * with `OnResult` on every input.
   */
  method Resolve(s: ChooserState, result: ActivityResult) returns (next: ChooserState, delivered: Option<Delivery>)
    ensures (next, delivered) == OnResult(s, result)
  {
    var value: Option<seq<Uri>>;
    if result.resultCode == RESULT_OK {
      var uris: seq<Uri> := [];
      var clip := ClipOf(result);
      var data := DataOf(result);
      if clip.Some? || data.Some? {
        if clip.Some? {
          var i := 0;
          while i < clip.value.ItemCount()
            invariant 0 <= i <= clip.value.ItemCount()
            invariant uris == clip.value.items[..i]
          {
            uris := uris + [clip.value.GetItemAt(i)];
            i := i + 1;
          }
          assert clip.value.items[..i] == clip.value.items;
        } else if data.Some? {
          uris := uris + [data.value];
          assert uris == [data.value];
        }
      } else if s.cameraImageUri.Some? {
        uris := uris + [s.cameraImageUri.value];
        assert uris == [s.cameraImageUri.value];
      }
      value := Some(uris);
    } else {
      value := None;
    }
    delivered := None;
    if s.fileChooserCallback.Some? {
      delivered := Some(Delivery(s.fileChooserCallback.value, value));
    }
    next := Idle;
  }

  /** A cancelled chooser delivers null whatever the intent and the camera slot hold. */
  lemma CancelIgnoresPayload(code: int, a: Option<Intent>, b: Option<Intent>, c1: Option<Uri>, c2: Option<Uri>)
    requires code != RESULT_OK
    ensures Reconcile(ActivityResult(code, a), c1) == Reconcile(ActivityResult(code, b), c2) == None
  {
  }

  /** With a gallery payload, the camera slot has no influence on the delivered array. */
  lemma GalleryIgnoresCamera(result: ActivityResult, c1: Option<Uri>, c2: Option<Uri>)
    requires HasGalleryPayload(result)
    ensures Reconcile(result, c1) == Reconcile(result, c2)
  {
  }

  /** With clip data, the single data URI has no influence on the delivered array. */
  lemma ClipIgnoresData(code: int, clip: ClipData, d1: Option<Uri>, d2: Option<Uri>, camera: Option<Uri>)
    ensures Reconcile(ActivityResult(code, Some(Intent(Some(clip), d1))), camera)
         == Reconcile(ActivityResult(code, Some(Intent(Some(clip), d2))), camera)
  {
  }

  /**
   * The delivered array is empty exactly when the result is RESULT_OK and either
   * the clip data has no items or there is no payload and no camera URI.
   */
  lemma EmptyArrayExactly(result: ActivityResult, camera: Option<Uri>)
    ensures Reconcile(result, camera) == Some([]) <==>
              && result.resultCode == RESULT_OK
              && (|| (ClipOf(result).Some? && ClipOf(result).value.ItemCount() == 0)
                  || (!HasGalleryPayload(result) && camera.None?))
  {
  }
}

=== FILE: wrappers.dfy ===
/** Nullable values of the Kotlin source (`T?`) are modelled as `Option<T>`. */
module Wrappers {

  /** `None` plays the role of Kotlin's `null`. */
  datatype Option<+T> = None | Some(value: T) {

    /** Zero or one element, as a sequence. */
    function ToSeq(): (s: seq<T>)
      ensures |s| <= 1
      ensures |s| == 1 <==> Some?
      ensures Some? ==> s[0] == value
    {
      match this
      case Some(v) => [v]
      case None => []
    }
  }
}
